=== FILE: README.md ===
# Battle rooms and order pricing, modelled in Dafny

This project models two parts of a Node.js backend.

The first is the real-time two-player battle. It covers:
- the skill-action processor, which applies rate-limited `attack` / `defend` / `burst` / `focus` actions to a player's combo and reaction score;
- the room registry, which creates, joins, looks up, removes and leaves rooms holding at most two players;
- the battle simulation, which per 50 ms tick decays skills, computes pressure, moves the shared dominance scalar, drains energy and checks for the end of the battle in a fixed order;
- the socket handlers (`createRoom`, `joinRoom`, `startBattle`, `skillAction`, `leaveRoom`, `disconnect`) and the two timer callbacks (countdown expiry, tick), each as a pure transition over the server state. A transition returns the new state, the acknowledgement sent to the caller, and the `battleEnd` payload when a battle finishes.

The second is the pricing and loyalty logic of restaurant order creation. Every requested item must be an active menu item sold in the requested size. The total is recomputed from menu prices. An authenticated customer gains 10 points, one order, and the BRONZE / SILVER / GOLD badges at 5 / 10 / 25 orders, each added at most once.

Modules, one per source component:
- `Wrappers`: `Option` and `Result`.
- `BattleState`: the player, room, registry and battle-end types.
- `SkillProcessor`: models `socket/skillProcessor.js`.
- `RoomManager`: models `socket/roomManager.js`.
- `BattleSim`: the pure simulation in `socket/battleManager.js`.
- `BattleGateway`: the handlers and timer callbacks in `socket/battleManager.js`.
- `BattleInvariants`: the invariant every handler keeps, and the forward-only phase machine.
- `RestaurantOrder`: models `createOrder` in `controllers/restaurantController.js`.
- `SkillLookupFinding`: the effect-table lookup exactly as written (see Findings).

Modelling choices:
- Combo, reaction, pressure, dominance and energy are `real`s.
- The clock is an explicit `now` argument, in milliseconds.
- The random room id is a caller-supplied fresh id.
- A room's timer handles are two booleans that say whether each handle is held.
- Timer expiries are events. `BattleGateway.Enabled` states when the runtime can deliver them: a tick only while the room holds its interval, and the countdown only while the room is still counting down. The model also delivers a timer event for a room that is no longer registered, as a no-op. That is more permissive than the source: `endBattle` clears both timers (socket/battleManager.js:64-72) before the only `removeRoom` (socket/battleManager.js:78), so such an event never fires there.
- A socket's `socket.data.roomId` is the `sessions` map of the server state.
- The JWT identity is a `UserClaims` record of optional fields. As in JavaScript, an empty string counts as absent.

## Model

| member | source | states |
|---|---|---|
| SkillProcessor.Clamp | socket/skillProcessor.js:14-16 | result lies in [lo, hi] when lo ≤ hi; an in-range value is returned unchanged; below-range gives lo, above-range gives hi; hi wins when lo > hi |
| SkillProcessor.ClampMonotone | socket/skillProcessor.js:14-16 | clamping preserves order, so a smaller input never clamps to a larger value |
| SkillProcessor.LookupAction | socket/skillProcessor.js:28-31 | a name is found iff it is one of the four table keys, and the type found is listed under exactly that name |
| SkillProcessor.LookupTypeName | socket/skillProcessor.js:7-12 | every action type is found again under its own table key |
| SkillProcessor.ProcessSkillAction | socket/skillProcessor.js:18-42 | applied iff the type is present, the player is outside the 75 ms window, and the type is known; a rejection leaves the player identical; acceptance stamps `now`, leaves combo in [0.5, 3] and reaction in [0, 100], moves each by exactly the table delta when that stays in range, and stops each at the bound it would cross otherwise; identity, base stats and energy never change |
| SkillProcessor.FocusKeepsCombo | socket/skillProcessor.js:7-12 | `focus` leaves an in-range combo unchanged and adds 4 to reaction, capped at 100 |
| SkillProcessor.BurstFromFresh | socket/skillProcessor.js:10 | a fresh player's `burst` gives combo 1.15 and reaction 0, because the -2 is clamped |
| SkillProcessor.RateLimitRejectsEverything | socket/skillProcessor.js:23-26 | any action within 75 ms of the last accepted one is rejected and the player is unchanged, whatever its type |
| SkillProcessor.ProcessAll | socket/skillProcessor.js:33-39 | over any sequence of actions, combo and reaction stay in range; identity, base stats and energy never change |
| RoomManager.FirstTruthy | socket/roomManager.js:8-9 | returns the first non-empty candidate, or the fallback when there is none |
| RoomManager.ResolveUserId | socket/roomManager.js:8 | user id falls back through `id`, `_id`, `sub`, `userId`, then the socket id |
| RoomManager.ResolveUsername | socket/roomManager.js:9 | display name falls back through `username`, `name`, `email`, then "Player", and is never empty |
| RoomManager.CreatePlayer | socket/roomManager.js:7-18 | a new player has base {100, 100} and live {energy 100, combo 1, reaction 0, lastActionAt 0}, with the resolved identity |
| RoomManager.CreateRoom | socket/roomManager.js:20-34 | registers a lobby room with exactly one player, dominance 0, energy {100, 100} and no timers under the given id; other rooms are untouched, and a fresh id grows the registry by one |
| RoomManager.JoinRoom | socket/roomManager.js:36-53 | errors in the order not found, full (≥ 2 players), not lobby, each leaving the registry unchanged; a registered lobby room with fewer than 2 players is always joined; success appends the new player last, adds exactly one player, keeps every other room field including the phase, and never exceeds 2 players |
| RoomManager.GetRoom | socket/roomManager.js:55-57 | finds a room iff its id is registered, and returns the registered room |
| RoomManager.RemoveRoom | socket/roomManager.js:59-61 | deletes only that key, whether or not it is present |
| RoomManager.RemoveRoomIdempotent | socket/roomManager.js:59-61 | removing a room twice equals removing it once |
| RoomManager.WithoutSocket | socket/roomManager.js:69 | the result holds exactly the players not on the socket and is no longer than the input |
| RoomManager.WithoutSocketAppend | socket/roomManager.js:69 | filtering distributes over concatenation, so the remaining players keep their relative order |
| RoomManager.WithoutAbsentSocket | socket/roomManager.js:69 | filtering a socket that has no player changes nothing |
| RoomManager.LeaveRoom | socket/roomManager.js:63-71 | an unknown room gives null and no change; otherwise the socket's players are filtered out of that room only, and the updated room is returned |
| BattleSim.PressureBounds | socket/battleManager.js:46-52 | with in-range stats, base pressure is in [0, 1], skill pressure in [0.1, 0.9], total pressure in [0.05, 0.95]; the fixed base stats give base pressure 1 |
| BattleSim.ApplySkillDecay | socket/battleManager.js:54-57 | combo and reaction end in range; in-range values never increase; each drops by exactly 0.01 / 0.2 above its floor and otherwise sits on the floor; nothing else changes |
| BattleSim.Verdict | socket/battleManager.js:109-127 | no result iff dominance is strictly inside ±100 and both energies are positive; player 1 wins iff dominance ≥ 100, or dominance > -100 with player 1 energy positive and player 2 energy exhausted; player 2 wins iff dominance < 100 and (dominance ≤ -100 or player 1 energy exhausted); the reason is dominance iff dominance is at a bound |
| BattleSim.SimultaneousKnockoutFavoursPlayerTwo | socket/battleManager.js:119-127 | when both energies are exhausted in one tick and dominance is not decisive, player 2 always wins |
| BattleSim.TickRoom | socket/battleManager.js:81-130 | under 2 players: ends as `player_left` with no winner and no change; otherwise dominance ends in [-100, 100], energies in [0, 100], neither non-negative energy rises, each player's live energy equals its slot, skill stats are in range, identities and phase are kept; each player is its decayed self with `lastActionAt` untouched; each energy falls by the opponent's decayed pressure × 0.8, and dominance moves by the pressure difference × 3, each stopping at the bound it would cross; the battle ends iff a bound is reached, naming one of the two players; the announced reason and winner are exactly `Verdict`'s decision on the new dominance and energies, in its priority order |
| BattleSim.Drain | socket/battleManager.js:103-104 | the energy a player's pressure drains from the opponent per tick: pressure × 0.8 when pressure is positive, otherwise nothing |
| BattleSim.StrongerPressureDrainsOpponent | socket/battleManager.js:90-104 | when player 1 presses harder after decay and neither energy runs out, player 2 loses more energy than player 1, player 1 loses some, and dominance does not move against player 1 |
| BattleSim.SymmetricTickKeepsDominance | socket/battleManager.js:93-101 | with identical base and skill stats on both sides, a tick leaves dominance unchanged |
| BattleSim.TickStepBounds | socket/battleManager.js:93-104 | with in-range stats, one tick moves dominance by at most 2.7; each energy drops by at most 0.76, and by at least 0.04 unless it reaches 0 |
| BattleSim.FirstTickOfFreshBattle | socket/battleManager.js:81-130 | two fresh players: after the first tick dominance is 0, both energies are 99.5208, and the battle goes on |
| BattleSim.BurstTipsDominance | socket/battleManager.js:93-101 | after player 1's single burst, the next tick moves dominance to +0.045 in player 1's favour |
| BattleSim.EndBattle | socket/battleManager.js:63-79 | the final room is `finished` with both timer handles cleared, and the room's id is removed from the registry with every other room untouched |
| BattleGateway.FindSocket | socket/battleManager.js:235 | gives the first index whose player is on the socket, or nothing iff no player is |
| BattleGateway.OnCreateRoom | socket/battleManager.js:149-158 | registers a new lobby under the fresh id whose only player is the caller, attaches the socket to it, and acknowledges with the room id |
| BattleGateway.OnJoinRoom | socket/battleManager.js:160-179 | an unknown room is rejected as not found, a full one as full, a started one as not joinable, each leaving the server unchanged; a registered lobby with room for a player is joined and acknowledged with the room's id; success attaches the socket to that id and stores the joined room |
| BattleGateway.OnStartBattle | socket/battleManager.js:181-222 | rejections in the order no room, fewer than 2 players, not lobby, each with no change; success moves only that room to `countdown`, holding the countdown timer, and acknowledges `countdown` |
| BattleGateway.OnCountdownExpired | socket/battleManager.js:209-217 | a no-op when the room is no longer registered; otherwise only that room becomes `active`, holding its tick interval |
| BattleGateway.OnSkillAction | socket/battleManager.js:224-247 | rejected as not active unless the room exists and is active; rejected as not in room unless a player is on the socket; otherwise the processor runs on the first matching player, only that player changes, and the ack reports whether it was applied |
| BattleGateway.OnLeave | socket/battleManager.js:249-291 | the socket's players leave its room and the socket is detached; an emptied room ends as `empty` with no winner; an active room ends as `player_left` won by the remaining first player; otherwise the room stays registered in its phase; leave acknowledges `ok` and disconnect sends nothing |
| BattleGateway.OnTick | socket/battleManager.js:81-130 | a no-op for an unregistered room; otherwise the tick's result is stored back, or, when the tick ends the battle, the room is removed and the end announced |
| BattleInvariants.InitialValid | socket/roomManager.js:1 | the empty registry satisfies the room invariant |
| BattleInvariants.CreatePreservesValid | socket/roomManager.js:20-34 | creating a room keeps every registered room well formed |
| BattleInvariants.JoinPreservesValid | socket/roomManager.js:36-53 | joining keeps every room at 1-2 players with the energy mirror and stat ranges intact |
| BattleInvariants.StartPreservesValid | socket/battleManager.js:181-222 | starting a battle keeps the invariant, including countdown timer ⇔ countdown or active phase |
| BattleInvariants.CountdownPreservesValid | socket/battleManager.js:209-217 | countdown expiry keeps the invariant, including interval ⇔ active phase |
| BattleInvariants.SkillPreservesValid | socket/battleManager.js:224-247 | a skill action keeps every player's combo and reaction in range and the energy mirror intact |
| BattleInvariants.LeavePreservesValid | socket/battleManager.js:249-291 | leave and disconnect keep the invariant: rooms that stay are non-empty, not active, at full energy and neutral dominance |
| BattleInvariants.TickPreservesValid | socket/battleManager.js:81-130 | a tick keeps dominance in [-100, 100], energies in [0, 100], and each player's energy equal to its slot |
| BattleInvariants.StepPreservesValid | socket/battleManager.js:148-292 | every deliverable event keeps every registered room well formed: 1-2 players, never `finished`, timers matching the phase, stats in range, energy mirrored |
| BattleInvariants.LeaveProgress | socket/battleManager.js:249-291 | a leave or disconnect moves a surviving room at most one step forward in the phase machine, and announces an end only when it removes a room |
| BattleInvariants.TickProgress | socket/battleManager.js:81-130 | a tick moves a surviving room at most one step forward in the phase machine, and announces an end only when it removes a room |
| BattleInvariants.CreateProgress | socket/battleManager.js:149-158 | creating a room under a fresh id advances no room past one phase step, and the room it adds is a one-player lobby |
| BattleInvariants.JoinProgress | socket/battleManager.js:160-179 | a join moves each room at most one phase step forward and adds only one-player lobbies |
| BattleInvariants.StartProgress | socket/battleManager.js:181-207 | a start moves each room at most one phase step forward (lobby → countdown) and adds only one-player lobbies |
| BattleInvariants.SkillProgress | socket/battleManager.js:224-247 | a skill action moves each room at most one phase step forward and adds only one-player lobbies |
| BattleInvariants.CountdownProgress | socket/battleManager.js:209-217 | a countdown expiry moves each room at most one phase step forward (countdown → active) and adds only one-player lobbies |
| BattleInvariants.StepPhaseProgress | socket/battleManager.js:181-217 | an event moves a surviving room at most one step along lobby → countdown → active; new rooms are one-player lobbies; a battle end always removes a room |
| BattleInvariants.RunPreservesValid | socket/battleManager.js:148-292 | over any run of deliverable events from a valid server, every room keeps at most 2 players, dominance in [-100, 100], energies in [0, 100], and skill stats in range |
| RestaurantOrder.ActiveMenu | controllers/restaurantController.js:17-23 | the lookup map holds exactly the requested items that are active, keyed by id; a catalogue keyed by document id gives a menu keyed by document id |
| RestaurantOrder.FindPrice | controllers/restaurantController.js:36 | finds the first price entry with the requested size label, or nothing iff no entry carries it |
| RestaurantOrder.LineFor | controllers/restaurantController.js:35-51 | an order line carries the menu item's id (the requested id when the menu is keyed by document id) and name, the requested size and quantity, and the price of the first menu entry whose size label matches |
| RestaurantOrder.PriceItems | controllers/restaurantController.js:26-52 | succeeds iff every line names an active item in an offered size; lines match the request one-for-one and in order; total = Σ line price × quantity; otherwise reports the error of the first unpriceable line |
| RestaurantOrder.LineSumAppend | controllers/restaurantController.js:42-43 | the total of concatenated lines is the sum of their totals |
| RestaurantOrder.OrderTotalFromMenu | controllers/restaurantController.js:26-43 | the recorded total equals Σ over the request of menu price × quantity, so no client price enters it |
| RestaurantOrder.BadgesToAdd | controllers/restaurantController.js:77-86 | a badge is proposed iff its milestone (GOLD 25, SILVER 10, BRONZE 5) is reached and it is not held |
| RestaurantOrder.AddToSet | controllers/restaurantController.js:88-91 | the result holds exactly the old and new badges, keeps the old ones as a prefix, and introduces no duplicate |
| RestaurantOrder.AwardLoyalty | controllers/restaurantController.js:70-92 | points rise by 10 and orders by 1; a badge is held afterwards iff it was held before or its milestone is reached by the updated order count; nothing is duplicated or dropped |
| RestaurantOrder.CreateOrder | controllers/restaurantController.js:8-93 | a missing or empty item list is rejected; a non-empty list succeeds iff every line is priceable, and otherwise reports the error for the first line that is not; on success the order is priced line by line from the active menu, totals Σ menu price × quantity, is `PENDING`, belongs to the user iff one is authenticated, and that user receives the loyalty update; with a catalogue keyed by document id, each line carries the id it was requested under |
| SkillLookupFinding.LookupAsWritten | socket/skillProcessor.js:28-31 | indexing the table finds an own row iff the name is a table key, and an inherited member iff it is an `Object.prototype` name |
| SkillLookupFinding.JsClamp | socket/skillProcessor.js:14-16 | clamping NaN gives NaN; a finite value clamps as `Clamp` does |
| SkillLookupFinding.InheritedKeyCorruptsStats | socket/skillProcessor.js:28-39 | an action of type "constructor" outside the rate limit is reported applied and leaves combo and reaction NaN |
| SkillLookupFinding.AsWrittenAgreesOffPrototype | socket/skillProcessor.js:18-42 | for every name that is not inherited, the code as written and the model return the same result and stats |
| SkillLookupFinding.CorrectedRejectsInheritedKeys | socket/skillProcessor.js:28-31 | the corrected lookup rejects every inherited name and leaves the player unchanged |

## Findings

| source | as written | input that shows it | evidently intended | confidence | as-written member | corrected member |
|---|---|---|---|---|---|---|
| socket/skillProcessor.js:28-39 | `ACTION_EFFECTS[action.type]` also finds members inherited from `Object.prototype`. These are truthy, so the action is accepted, and `effect.combo` / `effect.reaction` are `undefined`, so combo and reaction become NaN. On the next tick the NaN reaches that player's pressure, so dominance and the opponent's energy become NaN too (`Math.max(0, NaN)` is NaN). From then on the dominance checks are always false. If only one player is corrupted, that player's own energy still drains and the opponent wins on energy. If both are corrupted, no tick can end the battle; only a leave or disconnect does (socket/battleManager.js:263-266, 284-287). This spread past the skill processor is argued from the source and not modelled | a `skillAction` with payload `{type: "constructor"}` sent at least 75 ms after the player's last accepted action | only the four own keys `attack`, `defend`, `burst`, `focus` are action types; any other name is rejected | high (not executed) | SkillLookupFinding.InheritedKeyCorruptsStats | SkillProcessor.ProcessSkillAction |

The rest of the model uses the corrected lookup. `SkillLookupFinding.CorrectedRejectsInheritedKeys` proves that it rejects every inherited name. `SkillLookupFinding.AsWrittenAgreesOffPrototype` proves that on all other names it agrees with the code as written.

A second behaviour is kept as written and is not claimed as a finding. When both energies reach 0 in the same tick, player 2 always wins (`BattleSim.SimultaneousKnockoutFavoursPlayerTwo`). This follows from the order of the terminal checks, and it may be unintended.

## Left out

- JWT handshake authentication (socket/battleManager.js:133-146): library I/O. Identity is given to the handlers as `UserClaims`.
- socket.io broadcasting: `emit`, `join` / `leave`, `socketsLeave`, and the `battleUpdate` snapshots built by `serializeRoom` / `serializePlayer` (socket/battleManager.js:17-44, 59-61). A handler's output is only its acknowledgement and the `battleEnd` payload.
- `setTimeout` / `setInterval` scheduling and `Date.now()`. Timers are events, and the clock is the `now` argument.
- The 3000 ms countdown and the 50 ms tick period (socket/battleManager.js:12-13) are not modelled. Timer expiries are events that the model may deliver at any point, so the model does not state how long the countdown lasts or how often ticks come.
- `generateRoomId` (socket/roomManager.js:3-5) is random and time-based. Room ids are a fresh parameter.
- `createOrder`'s order id (`PF` plus the base-36 time) and the customer fields passed through to the order (name, phone, order type, persons, table): they are generated from the clock or copied verbatim.
- IEEE floating-point rounding. Stats are exact reals. NaN appears only in `SkillLookupFinding`.
- Action types other than strings, such as numbers, are not modelled. A missing type and an empty name are rejected alike.
- The `!room` branch of `tickBattle` (socket/battleManager.js:82) would dereference null inside `endBattle`. Here a tick event for an unregistered room is a no-op. The running system never fires such a tick, because `endBattle` clears the interval before removing the room.
- BattleGateway.OnLeave: on `disconnect` the source leaves `socket.data.roomId` set, but the socket itself goes away. The model drops the socket's session entry in both cases.
- Mongoose schema validation at `Order.create` (models/Order.js), such as `quantity` ≥ 1 and required customer fields. `createOrder` itself does not check them. Database failures are left out too.
- The two separate database updates of the loyalty rule are not atomic. Concurrent orders by one user are left out. models/User.js is not part of this model. The user is reduced to id, points, order count and badges.
- The other restaurant handlers, routes, services, models and the auth / notes / files / admin / AI controllers are database or filesystem CRUD, and are not modelled.

=== FILE: battle_gateway.dfy ===
/**
 * The session gateway: each socket event handler, and each timer callback,
 * as a pure transition over the server state that returns the new state and
 * what the caller is told (its acknowledgement and, when a battle ends, the
 * `battleEnd` payload). Snapshot broadcasts are not modelled.
 */
module BattleGateway {
  import opened Wrappers
  import opened BattleState
  import opened SkillProcessor
  import opened RoomManager
  import opened BattleSim

  /** The room registry and, per live socket, the room it last entered. */
  datatype Server = Server(rooms: Registry, sessions: map<SocketId, RoomId>)

  /** Client events, and the two timer expiries of a room. */
  datatype Event =
    | CreateRoomEvent(socket: SocketId, user: UserClaims, freshId: RoomId)
    | JoinRoomEvent(socket: SocketId, user: UserClaims, target: Option<RoomId>)
    | StartBattleEvent(socket: SocketId)
    | SkillActionEvent(socket: SocketId, action: ActionRequest, now: int)
    | LeaveRoomEvent(socket: SocketId)
    | DisconnectEvent(socket: SocketId)
    | CountdownExpired(roomId: RoomId)
    | TickEvent(roomId: RoomId)

  datatype GatewayError =
    | NotFound | Full | NotJoinable | NeedTwoPlayers | AlreadyStarted | BattleNotActive | PlayerNotInRoom

  function ErrorText(e: GatewayError): string
  {
    match e
    case NotFound => "Room not found"
    case Full => "Room is full"
    case NotJoinable => "Room is not joinable"
    case NeedTwoPlayers => "Need two players to start"
    case AlreadyStarted => "Battle already started"
    case BattleNotActive => "Battle not active"
    case PlayerNotInRoom => "Player not in room"
  }

  function FromJoinError(e: JoinError): GatewayError
  {
    match e
    case RoomNotFound => NotFound
    case RoomFull => Full
    case RoomNotJoinable => NotJoinable
  }

  /** The acknowledgement sent to the caller, if any. */
  datatype Ack =
    | NoAck
    | RoomIdAck(roomId: RoomId)
    | ErrorAck(error: GatewayError)
    | CountdownAck
    | AppliedAck(applied: bool)
    | OkAck

  datatype Reply = Reply(ack: Ack, end: Option<BattleEnd>)

  datatype Stepped = Stepped(server: Server, reply: Reply)

  /** The room a socket is currently attached to. */
  function SessionRoom(s: Server, socket: SocketId): Option<RoomId>
  {
    if socket in s.sessions then Some(s.sessions[socket]) else None
  }

  /** The index of the first player on `socket`, as `Array.prototype.find` picks it. */
  function FindSocket(ps: seq<Player>, socket: SocketId): (r: Option<nat>)
    ensures r.None? <==> forall j :: 0 <= j < |ps| ==> ps[j].socketId != socket
    ensures r.Some? ==> r.value < |ps| && ps[r.value].socketId == socket
    ensures r.Some? ==> forall j :: 0 <= j < r.value ==> ps[j].socketId != socket
    decreases |ps|
  {
    if |ps| == 0 then None
    else if ps[0].socketId == socket then Some(0)
    else match FindSocket(ps[1..], socket)
      case None => None
      case Some(i) => Some(i + 1)
  }

  function OnCreateRoom(s: Server, socket: SocketId, u: UserClaims, id: RoomId): (r: Stepped)
    ensures id in r.server.rooms && NewLobby(r.server.rooms[id], id)
    ensures id in r.server.rooms && r.server.rooms[id].players == [CreatePlayer(socket, u)]
    ensures UpdatedAt(s.rooms, r.server.rooms, id, r.server.rooms[id])
    ensures r.server.sessions == s.sessions[socket := id]
    ensures r.reply == Reply(RoomIdAck(id), None)
  {
    var c := CreateRoom(s.rooms, id, socket, u);
    Stepped(Server(c.rooms, s.sessions[socket := id]), Reply(RoomIdAck(id), None))
  }

  function OnJoinRoom(s: Server, socket: SocketId, u: UserClaims, target: Option<RoomId>): (r: Stepped)
    ensures r.reply.end.None?
    ensures !Registered(s.rooms, target) ==> r == Stepped(s, Reply(ErrorAck(NotFound), None))
    ensures r.reply.ack.ErrorAck? ==> r.server == s
    ensures r.reply.ack.RoomIdAck? ==>
      && Registered(s.rooms, target)
      && r.server.sessions == s.sessions[socket := s.rooms[target.value].id]
      && r.server.rooms == JoinRoom(s.rooms, target, socket, u).rooms
    ensures r.reply.ack.ErrorAck? || r.reply.ack.RoomIdAck?
    ensures Registered(s.rooms, target) && |s.rooms[target.value].players| >= MaxPlayers ==>
      r == Stepped(s, Reply(ErrorAck(Full), None))
    ensures Registered(s.rooms, target) && |s.rooms[target.value].players| < MaxPlayers
            && s.rooms[target.value].phase != Lobby ==>
      r == Stepped(s, Reply(ErrorAck(NotJoinable), None))
    ensures Registered(s.rooms, target) && |s.rooms[target.value].players| < MaxPlayers
            && s.rooms[target.value].phase == Lobby ==>
      r.reply.ack == RoomIdAck(s.rooms[target.value].id)
  {
    var j := JoinRoom(s.rooms, target, socket, u);
    match j.result
    case Err(e) => Stepped(s, Reply(ErrorAck(FromJoinError(e)), None))
    case Ok(room) =>
      Stepped(Server(j.rooms, s.sessions[socket := room.id]), Reply(RoomIdAck(room.id), None))
  }

  /**
   * `startBattle`: rejected in the order no room, fewer than two players,
   * not in the lobby, with no change; otherwise the room enters the
   * countdown and holds the countdown timer.
   */
  function OnStartBattle(s: Server, socket: SocketId): (r: Stepped)
    ensures r.server.sessions == s.sessions && r.reply.end.None?
    ensures !Registered(s.rooms, SessionRoom(s, socket)) ==> r == Stepped(s, Reply(ErrorAck(NotFound), None))
    ensures Registered(s.rooms, SessionRoom(s, socket)) ==>
      var id := SessionRoom(s, socket).value;
      var room := s.rooms[id];
      && (|room.players| < 2 ==> r == Stepped(s, Reply(ErrorAck(NeedTwoPlayers), None)))
      && (|room.players| >= 2 && room.phase != Lobby ==> r == Stepped(s, Reply(ErrorAck(AlreadyStarted), None)))
      && (|room.players| >= 2 && room.phase == Lobby ==>
            && r.reply.ack == CountdownAck
            && UpdatedAt(s.rooms, r.server.rooms, id, room.(phase := Countdown, countdownTimeout := true)))
  {
    var target := SessionRoom(s, socket);
    match GetRoom(s.rooms, target)
    case None => Stepped(s, Reply(ErrorAck(NotFound), None))
    case Some(room) =>
      if |room.players| < 2 then Stepped(s, Reply(ErrorAck(NeedTwoPlayers), None))
      else if room.phase != Lobby then Stepped(s, Reply(ErrorAck(AlreadyStarted), None))
      else
        var room' := room.(phase := Countdown, countdownTimeout := true);
        Stepped(s.(rooms := s.rooms[target.value := room']), Reply(CountdownAck, None))
  }

  /**
   * The countdown callback: a no-op once the room has left the registry;
   * otherwise the room becomes active and starts its tick timer.
   */
  function OnCountdownExpired(s: Server, id: RoomId): (r: Stepped)
    ensures r.reply == Reply(NoAck, None)
    ensures id !in s.rooms ==> r.server == s
    ensures id in s.rooms ==>
      && r.server.sessions == s.sessions
      && UpdatedAt(s.rooms, r.server.rooms, id, s.rooms[id].(phase := Active, interval := true))
  {
    if id !in s.rooms then Stepped(s, Reply(NoAck, None))
    else
      var room := s.rooms[id];
      Stepped(s.(rooms := s.rooms[id := room.(phase := Active, interval := true)]), Reply(NoAck, None))
  }

  /**
   * `skillAction`: rejected unless the caller's room exists, is active and
   * holds the caller; only then is the action processor run, on the first
   * player bound to the caller's socket, and nothing else changes.
   */
  function OnSkillAction(s: Server, socket: SocketId, action: ActionRequest, now: int): (r: Stepped)
    ensures r.server.sessions == s.sessions && r.reply.end.None?
    ensures !Registered(s.rooms, SessionRoom(s, socket)) || s.rooms[SessionRoom(s, socket).value].phase != Active ==>
      r == Stepped(s, Reply(ErrorAck(BattleNotActive), None))
    ensures Registered(s.rooms, SessionRoom(s, socket)) ==>
      var id := SessionRoom(s, socket).value;
      var room := s.rooms[id];
      && (room.phase == Active && FindSocket(room.players, socket).None? ==>
            r == Stepped(s, Reply(ErrorAck(PlayerNotInRoom), None)))
      && (room.phase == Active && FindSocket(room.players, socket).Some? ==>
            var i := FindSocket(room.players, socket).value;
            var res := ProcessSkillAction(room.players[i], action, now);
            && r.reply.ack == AppliedAck(Accepts(room.players[i], action, now))
            && UpdatedAt(s.rooms, r.server.rooms, id, room.(players := room.players[i := res.player])))
  {
    var target := SessionRoom(s, socket);
    match GetRoom(s.rooms, target)
    case None => Stepped(s, Reply(ErrorAck(BattleNotActive), None))
    case Some(room) =>
      if room.phase != Active then Stepped(s, Reply(ErrorAck(BattleNotActive), None))
      else match FindSocket(room.players, socket)
        case None => Stepped(s, Reply(ErrorAck(PlayerNotInRoom), None))
        case Some(i) =>
          var res := ProcessSkillAction(room.players[i], action, now);
          var room' := room.(players := room.players[i := res.player]);
          Stepped(s.(rooms := s.rooms[target.value := room']), Reply(AppliedAck(res.applied), None))
  }

  /**
   * `leaveRoom` (acknowledged) and `disconnect` (not acknowledged): the
   * caller's players leave the room; an emptied room ends as `empty` with no
   * winner, an active room ends as `player_left` won by the remaining first
   * player, and any other room stays registered in its phase.
   */
  function OnLeave(s: Server, socket: SocketId, disconnect: bool): (r: Stepped)
    ensures r.server.sessions == s.sessions - {socket}
    ensures r.reply.ack == if disconnect then NoAck else OkAck
    ensures !Registered(s.rooms, SessionRoom(s, socket)) ==> r.server.rooms == s.rooms && r.reply.end.None?
    ensures Registered(s.rooms, SessionRoom(s, socket)) ==>
      var id := SessionRoom(s, socket).value;
      var room := s.rooms[id];
      var rest := WithoutSocket(room.players, socket);
      && (|rest| == 0 ==>
            && r.reply.end == Some(BattleEnd(Empty, None))
            && r.server.rooms == RemoveRoom(s.rooms[id := room.(players := rest)], room.id))
      && (|rest| > 0 && room.phase == Active ==>
            && r.reply.end == Some(BattleEnd(PlayerLeft, Some(rest[0].userId)))
            && r.server.rooms == RemoveRoom(s.rooms[id := room.(players := rest)], room.id))
      && (|rest| > 0 && room.phase != Active ==>
            && r.reply.end.None?
            && UpdatedAt(s.rooms, r.server.rooms, id, room.(players := rest)))
  {
    var target := SessionRoom(s, socket);
    var l := LeaveRoom(s.rooms, target, socket);
    var sessions := s.sessions - {socket};
    var ack := if disconnect then NoAck else OkAck;
    match l.room
    case None => Stepped(Server(s.rooms, sessions), Reply(ack, None))
    case Some(room) =>
      if |room.players| == 0 then
        Stepped(Server(EndBattle(l.rooms, room).rooms, sessions), Reply(ack, Some(BattleEnd(Empty, None))))
      else if room.phase == Active then
        Stepped(Server(EndBattle(l.rooms, room).rooms, sessions),
                Reply(ack, Some(BattleEnd(PlayerLeft, Some(room.players[0].userId)))))
      else
        Stepped(Server(l.rooms, sessions), Reply(ack, None))
  }

  /**
   * The tick callback: the room is simulated one step; if that decides the
   * battle the room is torn down and the result announced, otherwise the
   * updated room is stored back.
   */
  function OnTick(s: Server, id: RoomId): (r: Stepped)
    ensures r.server.sessions == s.sessions && r.reply.ack == NoAck
    ensures id !in s.rooms ==> r.server == s && r.reply.end.None?
    ensures id in s.rooms ==>
      var t := TickRoom(s.rooms[id]);
      && r.reply.end == t.end
      && (t.end.None? ==> UpdatedAt(s.rooms, r.server.rooms, id, t.room))
      && (t.end.Some? ==> r.server.rooms == RemoveRoom(s.rooms, t.room.id))
  {
    if id !in s.rooms then Stepped(s, Reply(NoAck, None))
    else
      var t := TickRoom(s.rooms[id]);
      match t.end
      case None => Stepped(s.(rooms := s.rooms[id := t.room]), Reply(NoAck, None))
      case Some(end) => Stepped(s.(rooms := EndBattle(s.rooms, t.room).rooms), Reply(NoAck, Some(end)))
  }

  /** Dispatches one event to its handler. */
  function Step(s: Server, e: Event): Stepped
  {
    match e
    case CreateRoomEvent(socket, u, id) => OnCreateRoom(s, socket, u, id)
    case JoinRoomEvent(socket, u, target) => OnJoinRoom(s, socket, u, target)
    case StartBattleEvent(socket) => OnStartBattle(s, socket)
    case SkillActionEvent(socket, action, now) => OnSkillAction(s, socket, action, now)
    case LeaveRoomEvent(socket) => OnLeave(s, socket, false)
    case DisconnectEvent(socket) => OnLeave(s, socket, true)
    case CountdownExpired(id) => OnCountdownExpired(s, id)
    case TickEvent(id) => OnTick(s, id)
  }

  /**
   * The events the runtime can deliver: room ids are fresh, a tick fires
   * only while the room holds its interval, and the one-shot countdown
   * fires only while its room is still counting down. The model also
   * delivers a timer event for a room that is no longer registered, as a
   * no-op; the source never fires one.
   */
  predicate Enabled(s: Server, e: Event)
  {
    match e
    case CreateRoomEvent(_, _, id) => id !in s.rooms
    case CountdownExpired(id) => id !in s.rooms || s.rooms[id].phase == Countdown
    case TickEvent(id) => id !in s.rooms || s.rooms[id].interval
    case _ => true
  }

  /** Everything every registered room satisfies between events. */
  predicate RoomValid(id: RoomId, room: Room)
  {
    && room.id == id
    && 1 <= |room.players| <= MaxPlayers
    && room.phase != Finished
    && (room.interval <==> room.phase == Active)
    && (room.countdownTimeout <==> room.phase in {Countdown, Active})
    && -DominanceLimit <= room.dominance <= DominanceLimit
    && 0.0 <= room.energy.p1 <= MaxEnergy
    && 0.0 <= room.energy.p2 <= MaxEnergy
    && (forall i :: 0 <= i < |room.players| ==>
          BaseInRange(room.players[i].base) && SkillInRange(room.players[i].live))
    && room.players[0].live.energy == room.energy.p1
    && (|room.players| == 2 ==> room.players[1].live.energy == room.energy.p2)
    && (room.phase in {Lobby, Countdown} ==>
          && room.dominance == 0.0
          && room.energy == EnergySlots(MaxEnergy, MaxEnergy)
          && forall i :: 0 <= i < |room.players| ==> room.players[i].live.energy == MaxEnergy)
  }

  predicate Valid(s: Server)
  {
    forall id :: id in s.rooms ==> RoomValid(id, s.rooms[id])
  }

  /** The phase changes a single event may cause to a room that stays registered. */
  predicate PhaseStep(a: Phase, b: Phase)
  {
    a == b || (a == Lobby && b == Countdown) || (a == Countdown && b == Active)
  }
}

=== FILE: battle_invariants.dfy ===
/**
 * Properties of the whole battle service: every handler keeps each
 * registered room well formed (at most two players, stats in range, the
 * energy mirror in sync, timers matching the phase), rooms only move forward
 * through the phase machine, and this holds over any run of events.
 */
module BattleInvariants {
  import opened Wrappers
  import opened BattleState
  import opened SkillProcessor
  import opened RoomManager
  import opened BattleSim
  import opened BattleGateway

  /** The server before any connection. */
  lemma InitialValid()
    ensures Valid(Server(map[], map[]))
  {
  }

  lemma CreatePreservesValid(s: Server, socket: SocketId, u: UserClaims, id: RoomId)
    requires Valid(s)
    ensures Valid(OnCreateRoom(s, socket, u, id).server)
  {
    var r := OnCreateRoom(s, socket, u, id).server;
    forall k | k in r.rooms
      ensures RoomValid(k, r.rooms[k])
    {
      if k == id {
        var p := r.rooms[id].players[0];
        assert p == CreatePlayer(socket, u);
      }
    }
  }

  lemma JoinPreservesValid(s: Server, socket: SocketId, u: UserClaims, target: Option<RoomId>)
    requires Valid(s)
    ensures Valid(OnJoinRoom(s, socket, u, target).server)
  {
    var r := OnJoinRoom(s, socket, u, target);
    if r.reply.ack.RoomIdAck? {
      var id := target.value;
      var j := JoinRoom(s.rooms, target, socket, u);
      var room := j.result.value;
      var before := s.rooms[id];
      assert room.players == before.players + [CreatePlayer(socket, u)];
      assert RoomValid(id, room) by {
        forall i | 0 <= i < |room.players|
          ensures BaseInRange(room.players[i].base) && SkillInRange(room.players[i].live)
          ensures room.players[i].live.energy == MaxEnergy
        {
          if i < |before.players| {
            assert room.players[i] == before.players[i];
          }
        }
      }
    }
  }

  lemma StartPreservesValid(s: Server, socket: SocketId)
    requires Valid(s)
    ensures Valid(OnStartBattle(s, socket).server)
  {
  }

  lemma CountdownPreservesValid(s: Server, id: RoomId)
    requires Valid(s)
    requires id !in s.rooms || s.rooms[id].phase == Countdown
    ensures Valid(OnCountdownExpired(s, id).server)
  {
  }

  lemma SkillPreservesValid(s: Server, socket: SocketId, action: ActionRequest, now: int)
    requires Valid(s)
    ensures Valid(OnSkillAction(s, socket, action, now).server)
  {
    var target := SessionRoom(s, socket);
    if Registered(s.rooms, target) {
      var id := target.value;
      var room := s.rooms[id];
      if room.phase == Active && FindSocket(room.players, socket).Some? {
        var i := FindSocket(room.players, socket).value;
        var res := ProcessSkillAction(room.players[i], action, now);
        var room' := room.(players := room.players[i := res.player]);
        assert RoomValid(id, room') by {
          forall k | 0 <= k < |room'.players|
            ensures BaseInRange(room'.players[k].base) && SkillInRange(room'.players[k].live)
          {
            if k != i {
              assert room'.players[k] == room.players[k];
            }
          }
          assert room'.players[0].live.energy == room.players[0].live.energy;
          if |room.players| == 2 {
            assert room'.players[1].live.energy == room.players[1].live.energy;
          }
        }
      }
    }
  }

  /** Every player left after a leave was one of the room's players. */
  lemma WithoutSocketFrom(ps: seq<Player>, socket: SocketId, i: nat)
    requires i < |WithoutSocket(ps, socket)|
    ensures exists j :: 0 <= j < |ps| && ps[j] == WithoutSocket(ps, socket)[i]
  {
    var rest := WithoutSocket(ps, socket);
    assert rest[i] in rest;
    assert rest[i] in ps;
  }

  lemma LeavePreservesValid(s: Server, socket: SocketId, disconnect: bool)
    requires Valid(s)
    ensures Valid(OnLeave(s, socket, disconnect).server)
  {
    var target := SessionRoom(s, socket);
    if Registered(s.rooms, target) {
      var id := target.value;
      var room := s.rooms[id];
      var rest := WithoutSocket(room.players, socket);
      if |rest| > 0 && room.phase != Active {
        var room' := room.(players := rest);
        assert RoomValid(id, room') by {
          forall i | 0 <= i < |rest|
            ensures BaseInRange(rest[i].base) && SkillInRange(rest[i].live)
            ensures rest[i].live.energy == MaxEnergy
          {
            WithoutSocketFrom(room.players, socket, i);
          }
        }
      }
    }
  }

  lemma TickPreservesValid(s: Server, id: RoomId)
    requires Valid(s)
    requires id !in s.rooms || s.rooms[id].interval
    ensures Valid(OnTick(s, id).server)
  {
    if id in s.rooms {
      var room := s.rooms[id];
      var t := TickRoom(room);
      if t.end.None? {
        var q := t.room;
        assert RoomValid(id, q) by {
          forall i | 0 <= i < |q.players|
            ensures BaseInRange(q.players[i].base) && SkillInRange(q.players[i].live)
          {
            assert i < 2;
            assert BaseInRange(room.players[i].base);
          }
        }
      }
    }
  }

  /** Any deliverable event keeps the server well formed. */
  lemma StepPreservesValid(s: Server, e: Event)
    requires Valid(s) && Enabled(s, e)
    ensures Valid(Step(s, e).server)
  {
    match e
    case CreateRoomEvent(socket, u, id) => CreatePreservesValid(s, socket, u, id);
    case JoinRoomEvent(socket, u, target) => JoinPreservesValid(s, socket, u, target);
    case StartBattleEvent(socket) => StartPreservesValid(s, socket);
    case SkillActionEvent(socket, action, now) => SkillPreservesValid(s, socket, action, now);
    case LeaveRoomEvent(socket) => LeavePreservesValid(s, socket, false);
    case DisconnectEvent(socket) => LeavePreservesValid(s, socket, true);
    case CountdownExpired(id) => CountdownPreservesValid(s, id);
    case TickEvent(id) => TickPreservesValid(s, id);
  }

  /**
   * A step moves every surviving room at most one step along lobby,
   * countdown, active; a room that appears is a new one-player lobby; and a
   * battle end is announced only together with the removal of a room.
   */
  predicate Progress(s: Server, st: Stepped)
  {
    var s' := st.server;
    && (forall id :: id in s.rooms && id in s'.rooms ==> PhaseStep(s.rooms[id].phase, s'.rooms[id].phase))
    && (forall id :: id in s'.rooms && id !in s.rooms ==> s'.rooms[id].phase == Lobby && |s'.rooms[id].players| == 1)
    && (st.reply.end.Some? ==> s'.rooms.Keys < s.rooms.Keys)
  }

  lemma LeaveProgress(s: Server, socket: SocketId, disconnect: bool)
    requires Valid(s)
    ensures Progress(s, OnLeave(s, socket, disconnect))
  {
    var st := OnLeave(s, socket, disconnect);
    if st.reply.end.Some? {
      var id := SessionRoom(s, socket).value;
      assert id in s.rooms && id !in st.server.rooms;
    }
  }

  lemma TickProgress(s: Server, id: RoomId)
    requires Valid(s)
    ensures Progress(s, OnTick(s, id))
  {
    var st := OnTick(s, id);
    if id in s.rooms && st.reply.end.Some? {
      assert TickRoom(s.rooms[id]).room.id == id;
      assert id !in st.server.rooms;
    }
  }

  lemma CreateProgress(s: Server, socket: SocketId, u: UserClaims, id: RoomId)
    requires id !in s.rooms
    ensures Progress(s, OnCreateRoom(s, socket, u, id))
  {
  }

  lemma JoinProgress(s: Server, socket: SocketId, u: UserClaims, target: Option<RoomId>)
    ensures Progress(s, OnJoinRoom(s, socket, u, target))
  {
  }

  lemma StartProgress(s: Server, socket: SocketId)
    ensures Progress(s, OnStartBattle(s, socket))
  {
  }

  lemma SkillProgress(s: Server, socket: SocketId, action: ActionRequest, now: int)
    ensures Progress(s, OnSkillAction(s, socket, action, now))
  {
  }

  lemma CountdownProgress(s: Server, id: RoomId)
    requires id !in s.rooms || s.rooms[id].phase == Countdown
    ensures Progress(s, OnCountdownExpired(s, id))
  {
  }

  /** Any deliverable event makes progress through the phase machine only. */
  lemma StepPhaseProgress(s: Server, e: Event)
    requires Valid(s) && Enabled(s, e)
    ensures Progress(s, Step(s, e))
  {
    match e
    case LeaveRoomEvent(socket) => LeaveProgress(s, socket, false);
    case DisconnectEvent(socket) => LeaveProgress(s, socket, true);
    case TickEvent(id) => TickProgress(s, id);
    case CreateRoomEvent(socket, u, id) => CreateProgress(s, socket, u, id);
    case JoinRoomEvent(socket, u, target) => JoinProgress(s, socket, u, target);
    case StartBattleEvent(socket) => StartProgress(s, socket);
    case SkillActionEvent(socket, action, now) => SkillProgress(s, socket, action, now);
    case CountdownExpired(id) => CountdownProgress(s, id);
  }

  /** Whether every event of `es` is deliverable in the state it arrives in. */
  predicate Deliverable(s: Server, es: seq<Event>)
    decreases |es|
  {
    |es| == 0 || (Enabled(s, es[0]) && Deliverable(Step(s, es[0]).server, es[1..]))
  }

  /** The server after handling `es` in order. */
  function Run(s: Server, es: seq<Event>): Server
    decreases |es|
  {
    if |es| == 0 then s else Run(Step(s, es[0]).server, es[1..])
  }

  /**
   * Over any deliverable run, every registered room keeps at most two
   * players, dominance in [-100, 100], energies in [0, 100], and each
   * player's combo and reaction in range.
   */
  lemma {:induction false} RunPreservesValid(s: Server, es: seq<Event>)
    requires Valid(s)
    ensures Deliverable(s, es) ==> Valid(Run(s, es))
    decreases |es|
  {
    if |es| > 0 && Deliverable(s, es) {
      StepPreservesValid(s, es[0]);
      RunPreservesValid(Step(s, es[0]).server, es[1..]);
    }
  }
}

=== FILE: battle_sim.dfy ===
/**
 * The battle simulation: per-tick skill decay, pressure, the dominance and
 * energy updates, the terminal checks in their fixed priority order, and the
 * teardown of a finished battle.
 */
module BattleSim {
  import opened Wrappers
  import opened BattleState
  import opened SkillProcessor
  import RoomManager

  const DominanceStep: real := 3.0
  const EnergyDrain: real := 0.8
  const ComboDecay: real := 0.01
  const ReactionDecay: real := 0.2
  const DominanceLimit: real := 100.0
  const MaxEnergy: real := 100.0

  function BasePressure(p: Player): real
  {
    (p.base.power * 0.6 + p.base.stability * 0.4) / 100.0
  }

  function SkillPressure(p: Player): real
  {
    (p.live.combo * 20.0 + p.live.reactionScore * 0.3) / 100.0
  }

  /** Half base pressure plus half skill pressure. */
  function TotalPressure(p: Player): real
  {
    0.5 * BasePressure(p) + 0.5 * SkillPressure(p)
  }

  /**
   * The energy a player's pressure drains from the opponent in one tick;
   * a non-positive pressure drains nothing.
   */
  function Drain(p: Player): (d: real)
    ensures d >= 0.0
    ensures TotalPressure(p) > 0.0 ==> d == TotalPressure(p) * EnergyDrain
    ensures TotalPressure(p) <= 0.0 ==> d == 0.0
  {
    (if TotalPressure(p) > 0.0 then TotalPressure(p) else 0.0) * EnergyDrain
  }

  predicate BaseInRange(b: Base)
  {
    0.0 <= b.power <= 100.0 && 0.0 <= b.stability <= 100.0
  }

  /**
   * With base stats in [0, 100] and skill stats in range, total pressure
   * lies in [0.05, 0.95]; a fresh player's base pressure is exactly 1.
   */
  lemma PressureBounds(p: Player)
    requires BaseInRange(p.base) && SkillInRange(p.live)
    ensures 0.0 <= BasePressure(p) <= 1.0
    ensures 0.1 <= SkillPressure(p) <= 0.9
    ensures 0.05 <= TotalPressure(p) <= 0.95
    ensures p.base == Base(100.0, 100.0) ==> BasePressure(p) == 1.0
  {
  }

  /**
   * One tick of decay: combo drifts down by 0.01 to its floor of 0.5 and
   * reaction by 0.2 to its floor of 0; both end in range.
   */
  function ApplySkillDecay(p: Player): (q: Player)
    ensures SkillInRange(q.live)
    ensures SameExceptSkill(p, q) && q.live.lastActionAt == p.live.lastActionAt
    ensures SkillInRange(p.live) ==>
      q.live.combo <= p.live.combo && q.live.reactionScore <= p.live.reactionScore
    ensures SkillInRange(p.live) && p.live.combo >= MinCombo + ComboDecay ==>
      q.live.combo == p.live.combo - ComboDecay
    ensures SkillInRange(p.live) && p.live.combo < MinCombo + ComboDecay ==> q.live.combo == MinCombo
    ensures SkillInRange(p.live) && p.live.reactionScore >= ReactionDecay ==>
      q.live.reactionScore == p.live.reactionScore - ReactionDecay
    ensures SkillInRange(p.live) && p.live.reactionScore < ReactionDecay ==> q.live.reactionScore == MinReaction
  {
    p.(live := p.live.(
      combo := Clamp(p.live.combo - ComboDecay, MinCombo, MaxCombo),
      reactionScore := Clamp(p.live.reactionScore - ReactionDecay, MinReaction, MaxReaction)))
  }

  /** A terminal decision: why, and which slot (0 or 1) wins. */
  datatype Decision = Decision(reason: EndReason, winnerSlot: nat)

  /**
   * The terminal checks, first match wins: dominance at +100, dominance at
   * -100, player 1 out of energy, player 2 out of energy.
   */
  function Verdict(dominance: real, e1: real, e2: real): (r: Option<Decision>)
    ensures r.None? <==> -DominanceLimit < dominance < DominanceLimit && e1 > 0.0 && e2 > 0.0
    ensures r.Some? ==> r.value.winnerSlot <= 1
    ensures r.Some? && r.value.winnerSlot == 0 <==>
      dominance >= DominanceLimit || (dominance > -DominanceLimit && e1 > 0.0 && e2 <= 0.0)
    ensures r.Some? && r.value.winnerSlot == 1 <==>
      dominance < DominanceLimit && (dominance <= -DominanceLimit || e1 <= 0.0)
    ensures r.Some? && r.value.reason == DominanceWin <==>
      dominance >= DominanceLimit || dominance <= -DominanceLimit
    ensures r.Some? ==> r.value.reason in {DominanceWin, EnergyWin}
  {
    if dominance >= DominanceLimit then Some(Decision(DominanceWin, 0))
    else if dominance <= -DominanceLimit then Some(Decision(DominanceWin, 1))
    else if e1 <= 0.0 then Some(Decision(EnergyWin, 1))
    else if e2 <= 0.0 then Some(Decision(EnergyWin, 0))
    else None
  }

  /**
   * When both energies are exhausted in the same tick and dominance is not
   * decisive, player 2 is always declared the winner.
   */
  lemma SimultaneousKnockoutFavoursPlayerTwo(dominance: real, e1: real, e2: real)
    requires -DominanceLimit < dominance < DominanceLimit && e1 <= 0.0 && e2 <= 0.0
    ensures Verdict(dominance, e1, e2) == Some(Decision(EnergyWin, 1))
  {
  }

  /** The broadcast payload for a decision, naming the winning player's user id. */
  function Announce(d: Decision, p1: Player, p2: Player): BattleEnd
  {
    BattleEnd(d.reason, Some(if d.winnerSlot == 0 then p1.userId else p2.userId))
  }

  /** The room after a tick, and the end of the battle if the tick decided it. */
  datatype TickResult = TickResult(room: Room, end: Option<BattleEnd>)

  /** One simulation tick of a room. */
  function TickRoom(room: Room): (r: TickResult)
    ensures |room.players| < 2 ==> r == TickResult(room, Some(BattleEnd(PlayerLeft, None)))
    ensures |room.players| >= 2 ==>
      && r.room.id == room.id && r.room.phase == room.phase
      && r.room.interval == room.interval && r.room.countdownTimeout == room.countdownTimeout
      && -DominanceLimit <= r.room.dominance <= DominanceLimit
      && 0.0 <= r.room.energy.p1 <= MaxEnergy
      && 0.0 <= r.room.energy.p2 <= MaxEnergy
      && (0.0 <= room.energy.p1 ==> r.room.energy.p1 <= room.energy.p1)
      && (0.0 <= room.energy.p2 ==> r.room.energy.p2 <= room.energy.p2)
      && |r.room.players| == |room.players|
      && r.room.players[0].live.energy == r.room.energy.p1
      && r.room.players[1].live.energy == r.room.energy.p2
      && SkillInRange(r.room.players[0].live) && SkillInRange(r.room.players[1].live)
      && SameIdentity(room.players[0], r.room.players[0])
      && SameIdentity(room.players[1], r.room.players[1])
      && (r.end.None? <==>
            -DominanceLimit < r.room.dominance < DominanceLimit
            && r.room.energy.p1 > 0.0 && r.room.energy.p2 > 0.0)
      && (r.end.Some? ==> r.end.value.winner in {Some(room.players[0].userId), Some(room.players[1].userId)})
      && r.end == (match Verdict(r.room.dominance, r.room.energy.p1, r.room.energy.p2)
                   case None => None
                   case Some(d) => Some(Announce(d, r.room.players[0], r.room.players[1])))
      && r.room.players[2..] == room.players[2..]
    ensures |room.players| >= 2 ==>
      var d1 := ApplySkillDecay(room.players[0]);
      var d2 := ApplySkillDecay(room.players[1]);
      && r.room.players[0] == d1.(live := d1.live.(energy := r.room.energy.p1))
      && r.room.players[1] == d2.(live := d2.live.(energy := r.room.energy.p2))
      && r.room.players[0].live.lastActionAt == room.players[0].live.lastActionAt
      && r.room.players[1].live.lastActionAt == room.players[1].live.lastActionAt
    ensures |room.players| >= 2 ==>
      var d1 := ApplySkillDecay(room.players[0]);
      var d2 := ApplySkillDecay(room.players[1]);
      var x1 := room.energy.p1 - Drain(d2);
      var x2 := room.energy.p2 - Drain(d1);
      && (0.0 <= x1 <= MaxEnergy ==> r.room.energy.p1 == x1)
      && (x1 < 0.0 ==> r.room.energy.p1 == 0.0)
      && (x1 > MaxEnergy ==> r.room.energy.p1 == MaxEnergy)
      && (0.0 <= x2 <= MaxEnergy ==> r.room.energy.p2 == x2)
      && (x2 < 0.0 ==> r.room.energy.p2 == 0.0)
      && (x2 > MaxEnergy ==> r.room.energy.p2 == MaxEnergy)
    ensures |room.players| >= 2 ==>
      var d1 := ApplySkillDecay(room.players[0]);
      var d2 := ApplySkillDecay(room.players[1]);
      var x := room.dominance + (TotalPressure(d1) - TotalPressure(d2)) * DominanceStep;
      && (-DominanceLimit <= x <= DominanceLimit ==> r.room.dominance == x)
      && (x < -DominanceLimit ==> r.room.dominance == -DominanceLimit)
      && (x > DominanceLimit ==> r.room.dominance == DominanceLimit)
  {
    if |room.players| < 2 then TickResult(room, Some(BattleEnd(PlayerLeft, None)))
    else
      var p1 := ApplySkillDecay(room.players[0]);
      var p2 := ApplySkillDecay(room.players[1]);
      var t1 := TotalPressure(p1);
      var t2 := TotalPressure(p2);
      var dominance := Clamp(room.dominance + (t1 - t2) * DominanceStep, -DominanceLimit, DominanceLimit);
      var e1 := Clamp(room.energy.p1 - Drain(p2), 0.0, MaxEnergy);
      var e2 := Clamp(room.energy.p2 - Drain(p1), 0.0, MaxEnergy);
      var q1 := p1.(live := p1.live.(energy := e1));
      var q2 := p2.(live := p2.live.(energy := e2));
      var room' := room.(players := room.players[0 := q1][1 := q2], dominance := dominance,
                         energy := EnergySlots(e1, e2));
      var end := match Verdict(dominance, e1, e2)
        case None => None
        case Some(d) => Some(Announce(d, q1, q2));
      TickResult(room', end)
  }

  /** Two players are mirror images for the purpose of pressure. */
  predicate Symmetric(a: Player, b: Player)
  {
    a.base == b.base && a.live.combo == b.live.combo && a.live.reactionScore == b.live.reactionScore
  }

  /** With identical base and skill stats, a tick leaves dominance where it was. */
  lemma SymmetricTickKeepsDominance(room: Room)
    requires |room.players| >= 2 && Symmetric(room.players[0], room.players[1])
    requires -DominanceLimit <= room.dominance <= DominanceLimit
    ensures TickRoom(room).room.dominance == room.dominance
  {
  }

  /**
   * Each player's energy is drained by the opponent's pressure: when player 1
   * presses harder after decay and neither energy runs out, player 2 loses
   * more energy than player 1 and dominance moves towards player 1.
   */
  lemma StrongerPressureDrainsOpponent(room: Room)
    requires |room.players| >= 2
    requires 0.0 <= room.energy.p1 <= MaxEnergy && 0.0 <= room.energy.p2 <= MaxEnergy
    requires -DominanceLimit <= room.dominance <= DominanceLimit
    requires TotalPressure(ApplySkillDecay(room.players[0])) > TotalPressure(ApplySkillDecay(room.players[1])) > 0.0
    requires TickRoom(room).room.energy.p1 > 0.0 && TickRoom(room).room.energy.p2 > 0.0
    ensures var r := TickRoom(room).room;
      && room.energy.p2 - r.energy.p2 > room.energy.p1 - r.energy.p1 > 0.0
      && r.dominance >= room.dominance
  {
  }

  /**
   * With stats in range, one tick moves dominance by at most 2.7 and drains
   * each energy by at most 0.76, and by at least 0.04 unless it hits zero.
   */
  lemma TickStepBounds(room: Room)
    requires |room.players| >= 2
    requires forall i :: 0 <= i < 2 ==> BaseInRange(room.players[i].base) && SkillInRange(room.players[i].live)
    requires -DominanceLimit <= room.dominance <= DominanceLimit
    requires 0.0 <= room.energy.p1 <= MaxEnergy && 0.0 <= room.energy.p2 <= MaxEnergy
    ensures var r := TickRoom(room).room;
      && -2.7 <= r.dominance - room.dominance <= 2.7
      && room.energy.p1 - 0.76 <= r.energy.p1 <= room.energy.p1
      && room.energy.p2 - 0.76 <= r.energy.p2 <= room.energy.p2
      && (r.energy.p1 == 0.0 || r.energy.p1 <= room.energy.p1 - 0.04)
      && (r.energy.p2 == 0.0 || r.energy.p2 <= room.energy.p2 - 0.04)
  {
  }

  /** The two fresh players of a room that has just become active. */
  function FreshActiveRoom(id: RoomId, a: Player, b: Player): Room
  {
    Room(id, [a, b], Active, 0.0, EnergySlots(100.0, 100.0), true, true)
  }

  /**
   * Two untouched fresh players: after the first tick dominance is still 0
   * and each energy has dropped by 0.599 * 0.8 = 0.4792.
   */
  lemma FirstTickOfFreshBattle(id: RoomId, a: Player, b: Player)
    requires RoomManager.FreshStats(a) && RoomManager.FreshStats(b)
    ensures var r := TickRoom(FreshActiveRoom(id, a, b));
      && r.room.dominance == 0.0
      && r.room.energy == EnergySlots(99.5208, 99.5208)
      && r.end.None?
  {
  }

  /**
   * After one `burst` by player 1 (combo 1.15) against an untouched
   * opponent, the next tick shifts dominance to +0.045 in player 1's favour.
   */
  lemma BurstTipsDominance(id: RoomId, a: Player, b: Player)
    requires RoomManager.FreshStats(b)
    requires a.base == Base(100.0, 100.0) && a.live.combo == 1.15 && a.live.reactionScore == 0.0
    requires a.live.energy == 100.0
    ensures TickRoom(FreshActiveRoom(id, a, b)).room.dominance == 0.045
  {
  }

  /** The final state of a battle and the registry it has been removed from. */
  datatype Teardown = Teardown(rooms: Registry, last: Room)

  /**
   * Finalizes a room: both timer handles cleared, phase finished, and the
   * room deleted from the registry.
   */
  function EndBattle(reg: Registry, room: Room): (t: Teardown)
    ensures t.last == room.(phase := Finished, interval := false, countdownTimeout := false)
    ensures room.id !in t.rooms
    ensures t.rooms.Keys == reg.Keys - {room.id}
    ensures forall k :: k in t.rooms ==> t.rooms[k] == reg[k]
  {
    Teardown(RoomManager.RemoveRoom(reg, room.id),
             room.(phase := Finished, interval := false, countdownTimeout := false))
  }
}

=== FILE: battle_state.dfy ===
/**
 * The entities of the real-time battle: players, rooms, the room registry
 * and the result announced when a battle ends.
 *
 * Every combat statistic is a `real`; the floating-point rounding of the
 * running system is not modelled.
 */
module BattleState {
  import opened Wrappers

  type SocketId = string
  type UserId = string
  type RoomId = string

  /** Fixed combat attributes given to a player when it is created. */
  datatype Base = Base(power: real, stability: real)

  /** Per-tick state; `lastActionAt` is a clock reading in milliseconds. */
  datatype Live = Live(energy: real, combo: real, reactionScore: real, lastActionAt: int)

  datatype Player = Player(
    socketId: SocketId,
    userId: UserId,
    username: string,
    base: Base,
    live: Live)

  datatype Phase = Lobby | Countdown | Active | Finished

  /** The room's mirror of both players' energy, by slot. */
  datatype EnergySlots = EnergySlots(p1: real, p2: real)

  /**
   * One battle session. `interval` and `countdownTimeout` say whether the
   * corresponding timer handle is held (non-null) by the room.
   */
  datatype Room = Room(
    id: RoomId,
    players: seq<Player>,
    phase: Phase,
    dominance: real,
    energy: EnergySlots,
    interval: bool,
    countdownTimeout: bool)

  /** The in-memory directory of rooms, keyed by room id. */
  type Registry = map<RoomId, Room>

  /** Broadcast as "dominance", "energy", "player_left" and "empty". */
  datatype EndReason = DominanceWin | EnergyWin | PlayerLeft | Empty

  /** The payload of a `battleEnd` broadcast. */
  datatype BattleEnd = BattleEnd(reason: EndReason, winner: Option<UserId>)

  /** Two players agree on connection, identity and base stats. */
  predicate SameIdentity(p: Player, q: Player)
  {
    p.socketId == q.socketId && p.userId == q.userId && p.username == q.username && p.base == q.base
  }
}

=== FILE: restaurant_order.dfy ===
/**
 * The pricing and loyalty rules of restaurant order creation: every
 * requested item must be on the active menu with the requested size, the
 * total is recomputed from menu prices, and an authenticated customer earns
 * points and milestone badges.
 */
module RestaurantOrder {
  import opened Wrappers

  type ItemId = string

  datatype PriceEntry = PriceEntry(sizeLabel: string, value: real)

  /** A menu document; `key` is its database id. */
  datatype MenuItem = MenuItem(key: ItemId, name: string, prices: seq<PriceEntry>, active: bool)

  /** One line of the client's request; any price the client sends is ignored. */
  datatype RequestedItem = RequestedItem(itemId: ItemId, size: string, quantity: int)

  datatype OrderLine = OrderLine(itemId: ItemId, name: string, size: string, price: real, quantity: int)

  datatype OrderError =
    | NoItems
    | ItemUnavailable(itemId: ItemId)
    | SizeUnavailable(size: string, itemName: string)

  datatype Status = Pending | Preparing | Completed | Cancelled

  type UserRef = string

  datatype Order = Order(lines: seq<OrderLine>, total: real, user: Option<UserRef>, status: Status)

  /** The loyalty fields of a customer account. */
  datatype Account = Account(key: UserRef, points: int, totalOrders: int, badges: seq<string>)

  /** Every menu document is stored under its own id. */
  predicate KeyedById(m: map<ItemId, MenuItem>)
  {
    forall k :: k in m ==> m[k].key == k
  }

  /** The menu documents that are requested and active, keyed by id. */
  function ActiveMenu(catalogue: map<ItemId, MenuItem>, requested: set<ItemId>): (m: map<ItemId, MenuItem>)
    ensures forall k :: k in m <==> k in catalogue && k in requested && catalogue[k].active
    ensures forall k :: k in m ==> m[k] == catalogue[k]
    ensures KeyedById(catalogue) ==> KeyedById(m)
  {
    map k | k in catalogue && k in requested && catalogue[k].active :: catalogue[k]
  }

  /** The first price entry carrying `wanted` as its size label, as `Array.prototype.find` picks it. */
  function FindPrice(prices: seq<PriceEntry>, wanted: string): (r: Option<PriceEntry>)
    ensures r.None? <==> forall j :: 0 <= j < |prices| ==> prices[j].sizeLabel != wanted
    ensures r.Some? ==> r.value.sizeLabel == wanted
    ensures r.Some? ==> exists i :: (0 <= i < |prices| && prices[i] == r.value
                                    && forall j :: 0 <= j < i ==> prices[j].sizeLabel != wanted)
    decreases |prices|
  {
    if |prices| == 0 then None
    else if prices[0].sizeLabel == wanted then Some(prices[0])
    else
      var r := FindPrice(prices[1..], wanted);
      if r.Some? then
        ghost var i :| 0 <= i < |prices[1..]| && prices[1..][i] == r.value
          && forall j :: 0 <= j < i ==> prices[1..][j].sizeLabel != wanted;
        assert prices[i + 1] == r.value;
        r
      else r
  }

  /** Whether a request line names an active item in a size it is sold in. */
  predicate Priceable(menu: map<ItemId, MenuItem>, it: RequestedItem)
  {
    it.itemId in menu && FindPrice(menu[it.itemId].prices, it.size).Some?
  }

  /** The order line the server writes for a priceable request line. */
  function LineFor(menu: map<ItemId, MenuItem>, it: RequestedItem): (l: OrderLine)
    requires Priceable(menu, it)
    ensures l.itemId == menu[it.itemId].key && l.name == menu[it.itemId].name
    ensures l.size == it.size && l.quantity == it.quantity
    ensures KeyedById(menu) ==> l.itemId == it.itemId
    ensures exists i :: (0 <= i < |menu[it.itemId].prices|
                         && menu[it.itemId].prices[i] == PriceEntry(it.size, l.price)
                         && forall j :: 0 <= j < i ==> menu[it.itemId].prices[j].sizeLabel != it.size)
  {
    var m := menu[it.itemId];
    OrderLine(m.key, m.name, it.size, FindPrice(m.prices, it.size).value.value, it.quantity)
  }

  /** The error reported for the first line that cannot be priced. */
  function ErrorFor(menu: map<ItemId, MenuItem>, it: RequestedItem): OrderError
  {
    if it.itemId !in menu then ItemUnavailable(it.itemId)
    else SizeUnavailable(it.size, menu[it.itemId].name)
  }

  /** The cost of one line: unit price times quantity. */
  function Amount(price: real, quantity: int): real
  {
    price * quantity as real
  }

  /** Line `k` is the first request line that cannot be priced. */
  predicate FirstUnpriceable(menu: map<ItemId, MenuItem>, items: seq<RequestedItem>, k: int)
  {
    && 0 <= k < |items|
    && !Priceable(menu, items[k])
    && forall j :: 0 <= j < k ==> Priceable(menu, items[j])
  }

  /** Σ price × quantity over the order lines. */
  function LineSum(lines: seq<OrderLine>): real
    decreases |lines|
  {
    if |lines| == 0 then 0.0
    else LineSum(lines[..|lines| - 1]) + Amount(lines[|lines| - 1].price, lines[|lines| - 1].quantity)
  }

  datatype Priced = Priced(lines: seq<OrderLine>, total: real)

  /**
   * The pricing loop: one order line per request line, in order, priced
   * from the menu; the first unavailable item or size aborts with its error.
   */
  method PriceItems(menu: map<ItemId, MenuItem>, items: seq<RequestedItem>) returns (r: Result<Priced, OrderError>)
    ensures r.Ok? <==> forall k :: 0 <= k < |items| ==> Priceable(menu, items[k])
    ensures r.Ok? ==> |r.value.lines| == |items|
    ensures r.Ok? ==> forall k :: 0 <= k < |items| ==> r.value.lines[k] == LineFor(menu, items[k])
    ensures r.Ok? ==> r.value.total == LineSum(r.value.lines)
    ensures r.Err? ==> exists k :: FirstUnpriceable(menu, items, k) && r.error == ErrorFor(menu, items[k])
  {
    var total := 0.0;
    var lines: seq<OrderLine> := [];
    var i := 0;
    while i < |items|
      invariant 0 <= i <= |items|
      invariant |lines| == i
      invariant forall k :: 0 <= k < i ==> Priceable(menu, items[k])
      invariant forall k :: 0 <= k < i ==> lines[k] == LineFor(menu, items[k])
      invariant total == LineSum(lines)
    {
      var it := items[i];
      if it.itemId !in menu {
        assert FirstUnpriceable(menu, items, i);
        return Err(ItemUnavailable(it.itemId));
      }
      var m := menu[it.itemId];
      var entry := FindPrice(m.prices, it.size);
      if entry.None? {
        assert FirstUnpriceable(menu, items, i);
        return Err(SizeUnavailable(it.size, m.name));
      }
      var line := LineFor(menu, it);
      assert (lines + [line])[..|lines|] == lines;
      total := total + Amount(line.price, line.quantity);
      lines := lines + [line];
      i := i + 1;
    }
    return Ok(Priced(lines, total));
  }

  const Gold: string := "GOLD"
  const Silver: string := "SILVER"
  const Bronze: string := "BRONZE"
  const PointsPerOrder: int := 10

  /** Whether `totalOrders` reaches the milestone of `badge`. */
  predicate Earned(badge: string, totalOrders: int)
  {
    || (badge == Gold && totalOrders >= 25)
    || (badge == Silver && totalOrders >= 10)
    || (badge == Bronze && totalOrders >= 5)
  }

  /** The milestone badges due and not yet held, in the order GOLD, SILVER, BRONZE. */
  function BadgesToAdd(totalOrders: int, held: seq<string>): (r: seq<string>)
    ensures forall b :: b in r <==> Earned(b, totalOrders) && b !in held
  {
    (if totalOrders >= 25 && Gold !in held then [Gold] else [])
    + (if totalOrders >= 10 && Silver !in held then [Silver] else [])
    + (if totalOrders >= 5 && Bronze !in held then [Bronze] else [])
  }

  predicate NoDuplicates(s: seq<string>)
  {
    forall i, j :: 0 <= i < j < |s| ==> s[i] != s[j]
  }

  /** The database's add-to-set: append each new value not already present. */
  function AddToSet(held: seq<string>, toAdd: seq<string>): (r: seq<string>)
    ensures forall b :: b in r <==> b in held || b in toAdd
    ensures |held| <= |r| && r[..|held|] == held
    ensures NoDuplicates(held) ==> NoDuplicates(r)
    decreases |toAdd|
  {
    if |toAdd| == 0 then held
    else
      var next := if toAdd[0] in held then held else held + [toAdd[0]];
      assert next[..|held|] == held;
      AddToSet(next, toAdd[1..])
  }

  /**
   * The loyalty update after an order by an authenticated customer: ten
   * more points, one more order, and each milestone badge added once.
   */
  function AwardLoyalty(a: Account): (b: Account)
    ensures b.key == a.key
    ensures b.points == a.points + PointsPerOrder && b.totalOrders == a.totalOrders + 1
    ensures forall x :: x in b.badges <==> x in a.badges || Earned(x, b.totalOrders)
    ensures |a.badges| <= |b.badges| && b.badges[..|a.badges|] == a.badges
    ensures NoDuplicates(a.badges) ==> NoDuplicates(b.badges)
  {
    var updated := a.(points := a.points + PointsPerOrder, totalOrders := a.totalOrders + 1);
    var toAdd := BadgesToAdd(updated.totalOrders, updated.badges);
    if |toAdd| > 0 then updated.(badges := AddToSet(updated.badges, toAdd)) else updated
  }

  datatype Created = Created(order: Order, account: Option<Account>)

  /**
   * Order creation: rejects an empty or missing item list, prices every
   * line against the active menu, records the order as pending, and awards
   * loyalty to an authenticated customer.
   */
  method CreateOrder(catalogue: map<ItemId, MenuItem>, items: Option<seq<RequestedItem>>, user: Option<Account>)
    returns (r: Result<Created, OrderError>)
    ensures items.None? || |items.value| == 0 ==> r == Err(NoItems)
    ensures r.Ok? ==> items.Some? && |items.value| > 0
    ensures r.Ok? ==>
      var menu := ActiveMenu(catalogue, set k | 0 <= k < |items.value| :: items.value[k].itemId);
      && |r.value.order.lines| == |items.value|
      && (forall k :: 0 <= k < |items.value| ==>
            Priceable(menu, items.value[k]) && r.value.order.lines[k] == LineFor(menu, items.value[k]))
      && r.value.order.total == LineSum(r.value.order.lines)
      && r.value.order.total == RequestTotal(menu, items.value)
      && r.value.order.status == Pending
    ensures r.Ok? ==> (user.None? <==> r.value.order.user.None?)
    ensures r.Ok? && user.Some? ==>
      r.value.order.user == Some(user.value.key) && r.value.account == Some(AwardLoyalty(user.value))
    ensures r.Ok? && user.None? ==> r.value.account.None?
    ensures r.Err? && items.Some? && |items.value| > 0 ==> r.error != NoItems
    ensures r.Ok? && KeyedById(catalogue) ==>
      forall k :: 0 <= k < |items.value| ==> r.value.order.lines[k].itemId == items.value[k].itemId
    ensures items.Some? && |items.value| > 0 ==>
      var menu := ActiveMenu(catalogue, set k | 0 <= k < |items.value| :: items.value[k].itemId);
      && ((forall k :: 0 <= k < |items.value| ==> Priceable(menu, items.value[k])) ==> r.Ok?)
      && (r.Err? ==> exists k :: FirstUnpriceable(menu, items.value, k) && r.error == ErrorFor(menu, items.value[k]))
  {
    if items.None? || |items.value| == 0 {
      return Err(NoItems);
    }
    var requested := set k | 0 <= k < |items.value| :: items.value[k].itemId;
    var menu := ActiveMenu(catalogue, requested);
    var priced := PriceItems(menu, items.value);
    if priced.Err? {
      return Err(priced.error);
    }
    OrderTotalFromMenu(menu, items.value, priced.value.lines);
    var owner := if user.Some? then Some(user.value.key) else None;
    var order := Order(priced.value.lines, priced.value.total, owner, Pending);
    var account := if user.Some? then Some(AwardLoyalty(user.value)) else None;
    return Ok(Created(order, account));
  }

  /** The total of a concatenation of lines is the sum of their totals. */
  lemma {:induction false} LineSumAppend(a: seq<OrderLine>, b: seq<OrderLine>)
    ensures LineSum(a + b) == LineSum(a) + LineSum(b)
    decreases |b|
  {
    if |b| == 0 {
      assert a + b == a;
    } else {
      var b' := b[..|b| - 1];
      assert (a + b)[..|a + b| - 1] == a + b';
      LineSumAppend(a, b');
    }
  }

  /** The menu price of a priceable request line for its requested size. */
  function UnitPrice(menu: map<ItemId, MenuItem>, it: RequestedItem): real
    requires Priceable(menu, it)
  {
    FindPrice(menu[it.itemId].prices, it.size).value.value
  }

  /** Σ over the request lines of menu price × requested quantity. */
  function RequestTotal(menu: map<ItemId, MenuItem>, items: seq<RequestedItem>): real
    requires forall k :: 0 <= k < |items| ==> Priceable(menu, items[k])
    decreases |items|
  {
    if |items| == 0 then 0.0
    else
      var n := |items| - 1;
      RequestTotal(menu, items[..n]) + Amount(UnitPrice(menu, items[n]), items[n].quantity)
  }

  /**
   * The recorded total is Σ over the request of menu price × quantity:
   * no price sent by the client enters it.
   */
  lemma {:induction false} OrderTotalFromMenu(menu: map<ItemId, MenuItem>, items: seq<RequestedItem>, lines: seq<OrderLine>)
    requires forall k :: 0 <= k < |items| ==> Priceable(menu, items[k])
    requires |lines| == |items|
    requires forall k :: 0 <= k < |items| ==> lines[k] == LineFor(menu, items[k])
    ensures LineSum(lines) == RequestTotal(menu, items)
    decreases |items|
  {
    if |items| > 0 {
      var n := |items| - 1;
      var items', lines' := items[..n], lines[..n];
      assert forall k :: 0 <= k < n ==> items'[k] == items[k] && lines'[k] == lines[k];
      OrderTotalFromMenu(menu, items', lines');
      assert lines[n].price == UnitPrice(menu, items[n]) && lines[n].quantity == items[n].quantity;
    }
  }
}

=== FILE: room_manager.dfy ===
/**
 * The room registry: a map from room id to room with create, join, get,
 * remove and leave. Room ids are supplied by the caller, standing for the
 * source's random/time-based id generator.
 */
module RoomManager {
  import opened Wrappers
  import opened BattleState

  const MaxPlayers: nat := 2

  /**
   * The decoded identity attached to a connection. Each field may be
   * absent; an empty string is falsy in the source and is skipped alike.
   */
  datatype UserClaims = UserClaims(
    id: Option<string>,
    objectId: Option<string>,
    sub: Option<string>,
    userId: Option<string>,
    username: Option<string>,
    name: Option<string>,
    email: Option<string>)

  predicate Truthy(o: Option<string>)
  {
    o.Some? && o.value != ""
  }

  /** The first truthy candidate, or `fallback` when there is none. */
  function FirstTruthy(cands: seq<Option<string>>, fallback: string): (r: string)
    ensures (forall j :: 0 <= j < |cands| ==> !Truthy(cands[j])) ==> r == fallback
    ensures forall k :: 0 <= k < |cands| && Truthy(cands[k]) ==>
      (forall j :: 0 <= j < k ==> !Truthy(cands[j])) ==> r == cands[k].value
    decreases |cands|
  {
    if |cands| == 0 then fallback
    else if Truthy(cands[0]) then cands[0].value
    else FirstTruthy(cands[1..], fallback)
  }

  /** The player's user id: `id`, `_id`, `sub`, `userId`, then the socket id. */
  function ResolveUserId(u: UserClaims, socketId: SocketId): (r: UserId)
    ensures Truthy(u.id) ==> r == u.id.value
    ensures !Truthy(u.id) && Truthy(u.objectId) ==> r == u.objectId.value
    ensures !Truthy(u.id) && !Truthy(u.objectId) && Truthy(u.sub) ==> r == u.sub.value
    ensures !Truthy(u.id) && !Truthy(u.objectId) && !Truthy(u.sub) && Truthy(u.userId) ==> r == u.userId.value
    ensures !Truthy(u.id) && !Truthy(u.objectId) && !Truthy(u.sub) && !Truthy(u.userId) ==> r == socketId
  {
    var cands := [u.id, u.objectId, u.sub, u.userId];
    assert cands[0] == u.id && cands[1] == u.objectId && cands[2] == u.sub && cands[3] == u.userId;
    FirstTruthy(cands, socketId)
  }

  /** The display name: `username`, `name`, `email`, then `"Player"`. */
  function ResolveUsername(u: UserClaims): (r: string)
    ensures Truthy(u.username) ==> r == u.username.value
    ensures !Truthy(u.username) && Truthy(u.name) ==> r == u.name.value
    ensures !Truthy(u.username) && !Truthy(u.name) && Truthy(u.email) ==> r == u.email.value
    ensures !Truthy(u.username) && !Truthy(u.name) && !Truthy(u.email) ==> r == "Player"
    ensures r != ""
  {
    var cands := [u.username, u.name, u.email];
    assert cands[0] == u.username && cands[1] == u.name && cands[2] == u.email;
    FirstTruthy(cands, "Player")
  }

  /** The starting statistics every player receives. */
  predicate FreshStats(p: Player)
  {
    && p.base == Base(100.0, 100.0)
    && p.live == Live(100.0, 1.0, 0.0, 0)
  }

  function CreatePlayer(socketId: SocketId, u: UserClaims): (p: Player)
    ensures p.socketId == socketId
    ensures p.userId == ResolveUserId(u, socketId)
    ensures p.username == ResolveUsername(u)
    ensures FreshStats(p)
  {
    Player(socketId, ResolveUserId(u, socketId), ResolveUsername(u),
           Base(100.0, 100.0), Live(100.0, 1.0, 0.0, 0))
  }

  /** A freshly created room: lobby, one player, neutral dominance, full energy, no timers. */
  predicate NewLobby(room: Room, id: RoomId)
  {
    && room.id == id
    && |room.players| == 1
    && room.phase == Lobby
    && room.dominance == 0.0
    && room.energy == EnergySlots(100.0, 100.0)
    && !room.interval
    && !room.countdownTimeout
  }

  /** `reg'` is `reg` with exactly the entry for `id` set to `room`. */
  predicate UpdatedAt(reg: Registry, reg': Registry, id: RoomId, room: Room)
  {
    && reg'.Keys == reg.Keys + {id}
    && reg'[id] == room
    && forall k :: k in reg && k != id ==> reg'[k] == reg[k]
  }

  datatype Created = Created(rooms: Registry, room: Room)

  /** Registers a new lobby room under the id `id` with the caller as its only player. */
  function CreateRoom(reg: Registry, id: RoomId, socketId: SocketId, u: UserClaims): (r: Created)
    ensures NewLobby(r.room, id)
    ensures r.room.players[0] == CreatePlayer(socketId, u)
    ensures UpdatedAt(reg, r.rooms, id, r.room)
    ensures id !in reg ==> |r.rooms| == |reg| + 1
  {
    var room := Room(id, [CreatePlayer(socketId, u)], Lobby, 0.0,
                     EnergySlots(100.0, 100.0), false, false);
    Created(reg[id := room], room)
  }

  datatype JoinError = RoomNotFound | RoomFull | RoomNotJoinable

  function JoinErrorText(e: JoinError): string
  {
    match e
    case RoomNotFound => "Room not found"
    case RoomFull => "Room is full"
    case RoomNotJoinable => "Room is not joinable"
  }

  datatype Joined = Joined(rooms: Registry, result: Result<Room, JoinError>)

  /** Whether an optional key names a registered room. */
  predicate Registered(reg: Registry, roomId: Option<RoomId>)
  {
    roomId.Some? && roomId.value in reg
  }

  /**
   * Adds a player to a lobby room. Errors are checked in the order
   * not found, full, not joinable; on any error the registry is unchanged.
   */
  function JoinRoom(reg: Registry, roomId: Option<RoomId>, socketId: SocketId, u: UserClaims): (r: Joined)
    ensures !Registered(reg, roomId) ==> r == Joined(reg, Err(RoomNotFound))
    ensures Registered(reg, roomId) && |reg[roomId.value].players| >= MaxPlayers ==>
      r == Joined(reg, Err(RoomFull))
    ensures Registered(reg, roomId) && |reg[roomId.value].players| < MaxPlayers && reg[roomId.value].phase != Lobby ==>
      r == Joined(reg, Err(RoomNotJoinable))
    ensures Registered(reg, roomId) && |reg[roomId.value].players| < MaxPlayers && reg[roomId.value].phase == Lobby ==>
      r.result.Ok?
    ensures r.result.Ok? ==> Registered(reg, roomId)
    ensures r.result.Ok? && Registered(reg, roomId) ==>
      var before := reg[roomId.value];
      && before.phase == Lobby
      && r.result.value.players == before.players + [CreatePlayer(socketId, u)]
      && |r.result.value.players| == |before.players| + 1 <= MaxPlayers
      && r.result.value == before.(players := r.result.value.players)
      && UpdatedAt(reg, r.rooms, roomId.value, r.result.value)
    ensures r.result.Err? ==> r.rooms == reg
  {
    if !Registered(reg, roomId) then Joined(reg, Err(RoomNotFound))
    else
      var room := reg[roomId.value];
      if |room.players| >= MaxPlayers then Joined(reg, Err(RoomFull))
      else if room.phase != Lobby then Joined(reg, Err(RoomNotJoinable))
      else
        var room' := room.(players := room.players + [CreatePlayer(socketId, u)]);
        Joined(reg[roomId.value := room'], Ok(room'))
  }

  /** A plain lookup; the registry is untouched because it is a value. */
  function GetRoom(reg: Registry, roomId: Option<RoomId>): (r: Option<Room>)
    ensures r.Some? <==> Registered(reg, roomId)
    ensures r.Some? ==> r.value == reg[roomId.value]
  {
    if Registered(reg, roomId) then Some(reg[roomId.value]) else None
  }

  /** Deletes one key, whether or not it is present. */
  function RemoveRoom(reg: Registry, id: RoomId): (reg': Registry)
    ensures reg'.Keys == reg.Keys - {id}
    ensures forall k :: k in reg' ==> reg'[k] == reg[k]
  {
    reg - {id}
  }

  /** Removing a room twice is the same as removing it once. */
  lemma RemoveRoomIdempotent(reg: Registry, id: RoomId)
    ensures RemoveRoom(RemoveRoom(reg, id), id) == RemoveRoom(reg, id)
  {
  }

  /** The players whose socket is not `socketId`, in their original order. */
  function WithoutSocket(ps: seq<Player>, socketId: SocketId): (r: seq<Player>)
    ensures |r| <= |ps|
    ensures forall p :: p in r <==> p in ps && p.socketId != socketId
    decreases |ps|
  {
    if |ps| == 0 then []
    else if ps[0].socketId == socketId then WithoutSocket(ps[1..], socketId)
    else [ps[0]] + WithoutSocket(ps[1..], socketId)
  }

  /** Filtering distributes over concatenation, so relative order is kept. */
  lemma {:induction false} WithoutSocketAppend(a: seq<Player>, b: seq<Player>, socketId: SocketId)
    ensures WithoutSocket(a + b, socketId) == WithoutSocket(a, socketId) + WithoutSocket(b, socketId)
    decreases |a|
  {
    if |a| == 0 {
      assert a + b == b;
    } else {
      assert (a + b)[0] == a[0];
      assert (a + b)[1..] == a[1..] + b;
      WithoutSocketAppend(a[1..], b, socketId);
    }
  }

  /** A sequence with no player on `socketId` is left exactly as it is. */
  lemma {:induction false} WithoutAbsentSocket(ps: seq<Player>, socketId: SocketId)
    requires forall i :: 0 <= i < |ps| ==> ps[i].socketId != socketId
    ensures WithoutSocket(ps, socketId) == ps
    decreases |ps|
  {
    if |ps| > 0 {
      WithoutAbsentSocket(ps[1..], socketId);
    }
  }

  datatype Left = Left(rooms: Registry, room: Option<Room>)

  /**
   * Removes every player on `socketId` from the named room and returns the
   * updated room; an unknown room yields `None` and no change.
   */
  function LeaveRoom(reg: Registry, roomId: Option<RoomId>, socketId: SocketId): (r: Left)
    ensures !Registered(reg, roomId) ==> r == Left(reg, None)
    ensures Registered(reg, roomId) ==>
      var before := reg[roomId.value];
      && r.room.Some?
      && r.room.value == before.(players := WithoutSocket(before.players, socketId))
      && UpdatedAt(reg, r.rooms, roomId.value, r.room.value)
  {
    if !Registered(reg, roomId) then Left(reg, None)
    else
      var room := reg[roomId.value];
      var room' := room.(players := WithoutSocket(room.players, socketId));
      Left(reg[roomId.value := room'], Some(room'))
  }
}

=== FILE: skill_lookup_finding.dfy ===
/**
 * The action-effect lookup as written: indexing a plain JavaScript object
 * by a client-chosen name also finds the members every object inherits
 * (`constructor`, `toString`, ...). Such a member is truthy, so the action
 * passes the unknown-type check, but it has no `combo` or `reaction`
 * field; adding the missing field to a stat yields NaN, and clamping NaN
 * yields NaN. The main model looks names up among the table's own keys.
 */
module SkillLookupFinding {
  import opened Wrappers
  import opened BattleState
  import SkillProcessor

  /** The names a plain object inherits from `Object.prototype`. */
  const InheritedKeys: set<string> := {
    "constructor", "hasOwnProperty", "isPrototypeOf", "propertyIsEnumerable",
    "toString", "toLocaleString", "valueOf", "__proto__",
    "__defineGetter__", "__defineSetter__", "__lookupGetter__", "__lookupSetter__"}

  /** A JavaScript number, as far as this defect needs: finite or NaN. */
  datatype JsNumber = Finite(v: real) | NaN

  /** What indexing the effect table yields. */
  datatype TableEntry = OwnRow(effect: SkillProcessor.Effect) | InheritedMember | Undefined

  /** `ACTION_EFFECTS[name]` with the prototype chain taken into account. */
  function LookupAsWritten(name: string): (r: TableEntry)
    ensures r.OwnRow? <==> SkillProcessor.LookupAction(name).Some?
    ensures r.InheritedMember? <==> name in InheritedKeys
  {
    match SkillProcessor.LookupAction(name)
    case Some(t) => OwnRow(SkillProcessor.EffectOf(t))
    case None => if name in InheritedKeys then InheritedMember else Undefined
  }

  /** `stat + delta`, where an absent delta is `undefined` and the sum is NaN. */
  function AddDelta(stat: real, delta: Option<real>): JsNumber
  {
    if delta.Some? then Finite(stat + delta.value) else NaN
  }

  /** `Math.min(hi, Math.max(lo, v))`, where NaN propagates through both. */
  function JsClamp(v: JsNumber, lo: real, hi: real): (r: JsNumber)
    ensures v.NaN? <==> r.NaN?
    ensures v.Finite? ==> r == Finite(SkillProcessor.Clamp(v.v, lo, hi))
  {
    match v
    case NaN => NaN
    case Finite(x) => Finite(SkillProcessor.Clamp(x, lo, hi))
  }

  datatype AsWrittenResult = AsWrittenResult(applied: bool, combo: JsNumber, reactionScore: JsNumber, lastActionAt: int)

  /** The processor exactly as written, over JavaScript numbers. */
  function ProcessAsWritten(p: Player, action: SkillProcessor.ActionRequest, now: int): AsWrittenResult
  {
    var rejected := AsWrittenResult(false, Finite(p.live.combo), Finite(p.live.reactionScore), p.live.lastActionAt);
    if !SkillProcessor.HasType(action) then rejected
    else if SkillProcessor.RateLimited(p, now) then rejected
    else match LookupAsWritten(action.value)
      case Undefined => rejected
      case OwnRow(e) =>
        AsWrittenResult(true,
          JsClamp(AddDelta(p.live.combo, Some(e.combo)), SkillProcessor.MinCombo, SkillProcessor.MaxCombo),
          JsClamp(AddDelta(p.live.reactionScore, Some(e.reaction)), SkillProcessor.MinReaction, SkillProcessor.MaxReaction),
          now)
      case InheritedMember =>
        AsWrittenResult(true,
          JsClamp(AddDelta(p.live.combo, None), SkillProcessor.MinCombo, SkillProcessor.MaxCombo),
          JsClamp(AddDelta(p.live.reactionScore, None), SkillProcessor.MinReaction, SkillProcessor.MaxReaction),
          now)
  }

  /**
   * The counterexample: a `skillAction` of type "constructor" outside the
   * rate limit is reported as applied and leaves combo and reaction NaN,
   * outside every range the processor promises.
   */
  lemma InheritedKeyCorruptsStats(p: Player, now: int)
    requires !SkillProcessor.RateLimited(p, now)
    ensures var r := ProcessAsWritten(p, Some("constructor"), now);
      r.applied && r.combo.NaN? && r.reactionScore.NaN?
  {
  }

  /** On every name that is not inherited, the written code and the model agree. */
  lemma AsWrittenAgreesOffPrototype(p: Player, action: SkillProcessor.ActionRequest, now: int)
    requires action.Some? ==> action.value !in InheritedKeys
    ensures var w := ProcessAsWritten(p, action, now);
      var m := SkillProcessor.ProcessSkillAction(p, action, now);
      && w.applied == m.applied
      && w.combo == Finite(m.player.live.combo)
      && w.reactionScore == Finite(m.player.live.reactionScore)
      && w.lastActionAt == m.player.live.lastActionAt
  {
  }

  /** The corrected lookup rejects every inherited name without touching the player. */
  lemma CorrectedRejectsInheritedKeys(p: Player, name: string, now: int)
    requires name in InheritedKeys
    ensures SkillProcessor.ProcessSkillAction(p, Some(name), now) == SkillProcessor.SkillResult(false, p)
  {
  }
}

=== FILE: skill_processor.dfy ===
/**
 * The skill-action processor: validates one client action and applies its
 * fixed combo / reaction deltas to the acting player, with a per-player
 * minimum interval between accepted actions.
 */
module SkillProcessor {
  import opened Wrappers
  import opened BattleState

  const MaxCombo: real := 3.0
  const MinCombo: real := 0.5
  const MaxReaction: real := 100.0
  const MinReaction: real := 0.0
  const MinActionIntervalMs: int := 75

  /** `Math.min(hi, Math.max(lo, value))`: note that `hi` wins when `lo > hi`. */
  function Clamp(value: real, lo: real, hi: real): (r: real)
    ensures lo <= hi ==> lo <= r <= hi
    ensures lo <= value <= hi ==> r == value
    ensures lo <= hi && value < lo ==> r == lo
    ensures value > hi ==> r == hi
    ensures hi < lo ==> r == hi
  {
    var raised := if lo < value then value else lo;
    if hi < raised then hi else raised
  }

  /** Clamping into a fixed range preserves the order of its arguments. */
  lemma ClampMonotone(a: real, b: real, lo: real, hi: real)
    requires a <= b
    ensures Clamp(a, lo, hi) <= Clamp(b, lo, hi)
  {
  }

  /** Combo and reaction lie in the ranges the processor clamps them to. */
  predicate SkillInRange(l: Live)
  {
    MinCombo <= l.combo <= MaxCombo && MinReaction <= l.reactionScore <= MaxReaction
  }

  datatype ActionType = Attack | Defend | Burst | Focus

  /** One row of the action-effect table. */
  datatype Effect = Effect(combo: real, reaction: real)

  /** The action-effect table. */
  function EffectOf(t: ActionType): Effect
  {
    match t
    case Attack => Effect(0.08, 1.0)
    case Defend => Effect(-0.03, 3.0)
    case Burst => Effect(0.15, -2.0)
    case Focus => Effect(0.0, 4.0)
  }

  /** The key under which each action type appears in the table. */
  function TypeName(t: ActionType): string
  {
    match t
    case Attack => "attack"
    case Defend => "defend"
    case Burst => "burst"
    case Focus => "focus"
  }

  /** Looks an action name up among the table's own keys. */
  function LookupAction(name: string): (r: Option<ActionType>)
    ensures r.Some? ==> TypeName(r.value) == name
    ensures r.None? ==> forall t: ActionType :: TypeName(t) != name
  {
    if name == "attack" then Some(Attack)
    else if name == "defend" then Some(Defend)
    else if name == "burst" then Some(Burst)
    else if name == "focus" then Some(Focus)
    else None
  }

  /** Every action type is found again under its own name. */
  lemma LookupTypeName(t: ActionType)
    ensures LookupAction(TypeName(t)) == Some(t)
  {
  }

  /**
   * The action payload's `type`: `None` when the action or its type is
   * missing. An empty name is falsy in the source and is rejected alike.
   */
  type ActionRequest = Option<string>

  /** Whether the payload carries a truthy type name. */
  predicate HasType(action: ActionRequest)
  {
    action.Some? && action.value != ""
  }

  /** Whether the player acted less than the minimum interval before `now`. */
  predicate RateLimited(p: Player, now: int)
  {
    now - p.live.lastActionAt < MinActionIntervalMs
  }

  /** Whether the processor accepts the action at time `now`. */
  predicate Accepts(p: Player, action: ActionRequest, now: int)
  {
    HasType(action) && !RateLimited(p, now) && LookupAction(action.value).Some?
  }

  /** Two players agree on everything the processor must not touch. */
  predicate SameExceptSkill(p: Player, q: Player)
  {
    SameIdentity(p, q) && q.live.energy == p.live.energy
  }

  datatype SkillResult = SkillResult(applied: bool, player: Player)

  /**
   * Applies one skill action at clock reading `now`. A rejected action
   * (no type, rate-limited, or unknown type) leaves the player unchanged;
   * an accepted one stamps `now` and moves combo and reaction by the table's
   * deltas, each clamped to its range.
   */
  function ProcessSkillAction(p: Player, action: ActionRequest, now: int): (r: SkillResult)
    ensures r.applied <==> Accepts(p, action, now)
    ensures !r.applied ==> r.player == p
    ensures r.applied ==> r.player.live.lastActionAt == now
    ensures r.applied ==> SkillInRange(r.player.live)
    ensures SameExceptSkill(p, r.player)
    ensures r.applied ==>
      var e := EffectOf(LookupAction(action.value).value);
      && (MinCombo <= p.live.combo + e.combo <= MaxCombo ==> r.player.live.combo == p.live.combo + e.combo)
      && (MinReaction <= p.live.reactionScore + e.reaction <= MaxReaction ==>
            r.player.live.reactionScore == p.live.reactionScore + e.reaction)
      && (p.live.combo + e.combo > MaxCombo ==> r.player.live.combo == MaxCombo)
      && (p.live.combo + e.combo < MinCombo ==> r.player.live.combo == MinCombo)
      && (p.live.reactionScore + e.reaction > MaxReaction ==> r.player.live.reactionScore == MaxReaction)
      && (p.live.reactionScore + e.reaction < MinReaction ==> r.player.live.reactionScore == MinReaction)
  {
    if !HasType(action) then SkillResult(false, p)
    else if RateLimited(p, now) then SkillResult(false, p)
    else match LookupAction(action.value)
      case None => SkillResult(false, p)
      case Some(t) =>
        var e := EffectOf(t);
        var live := p.live.(
          lastActionAt := now,
          combo := Clamp(p.live.combo + e.combo, MinCombo, MaxCombo),
          reactionScore := Clamp(p.live.reactionScore + e.reaction, MinReaction, MaxReaction));
        SkillResult(true, p.(live := live))
  }

  /** `focus` never moves an in-range combo, and raises reaction by 4 below the cap. */
  lemma FocusKeepsCombo(p: Player, now: int)
    requires SkillInRange(p.live) && !RateLimited(p, now)
    ensures var r := ProcessSkillAction(p, Some("focus"), now);
      && r.applied
      && r.player.live.combo == p.live.combo
      && r.player.live.reactionScore == if p.live.reactionScore <= 96.0 then p.live.reactionScore + 4.0 else MaxReaction
  {
  }

  /** A fresh player's first `burst` raises combo to 1.15 and leaves reaction clamped at 0. */
  lemma BurstFromFresh(p: Player, now: int)
    requires p.live.combo == 1.0 && p.live.reactionScore == 0.0
    requires now >= p.live.lastActionAt + MinActionIntervalMs
    ensures var r := ProcessSkillAction(p, Some("burst"), now);
      r.applied && r.player.live.combo == 1.15 && r.player.live.reactionScore == 0.0
  {
  }

  /** Any action sent within 75 ms of the last accepted one changes nothing. */
  lemma RateLimitRejectsEverything(p: Player, action: ActionRequest, now: int)
    requires now < p.live.lastActionAt + MinActionIntervalMs
    ensures ProcessSkillAction(p, action, now) == SkillResult(false, p)
  {
  }

  /**
   * A player whose skill stats start in range keeps them in range over any
   * sequence of actions, accepted or not.
   */
  function ProcessAll(p: Player, actions: seq<(ActionRequest, int)>): (q: Player)
    requires SkillInRange(p.live)
    ensures SkillInRange(q.live)
    ensures SameExceptSkill(p, q)
    decreases |actions|
  {
    if |actions| == 0 then p
    else
      var (a, now) := actions[0];
      ProcessAll(ProcessSkillAction(p, a, now).player, actions[1..])
  }
}

=== FILE: wrappers.dfy ===
/** Failure-carrying values shared by the battle and restaurant modules. */
module Wrappers {

  /** A value that may be absent: the source's `null` / `undefined`. */
  datatype Option<+T> = None | Some(value: T)

  /** Either a value or the error a handler reports instead of it. */
  datatype Result<+T, +E> = Ok(value: T) | Err(error: E)
}
